=== FILE: README.md ===
# go_gallery: windowed thumbnail bookkeeping in Dafny

This project models the core of a small Go photo-gallery server (`main.go`).
The server scans a directory for images and shows them in a grid of `rows` by
`cols`. On each scroll request it converts the images around the visible rows
to thumbnails and returns an HTML fragment. In that fragment, only the images
near the visible rows hold real entries.

The model is functional. The image list is an immutable `seq<GalleryImg>`.
The global flags `rows` and `cols` become a `Config` parameter, and
`len(imgs)` becomes `n`. The conversion channel is a FIFO `seq<nat>` of entry
indices, and the `sync.WaitGroup` is an integer counter.

- `Window`: `getMaskInds` and its two uses. The display window uses a margin
  of `rows`. The conversion window uses a margin of `2*rows`.
- `Mask`: the list-building part of `maskImgView`.
- `Thumbnails`: the selection loop of `findToThumbnail` and the worker's
  `ThumbPath` update. A `Pool` holds the image list, the queue and the
  counter. `Request`, `WorkStep` and `Drain` are the sequential steps.
- `Scan`: the `selectImgs` walk callback over a given sequence of visited
  paths. It also has `randomizeData`, with the random draws as a parameter.
- `Paths`: `strings.TrimPrefix`, suffix/prefix tests and `filepath.Base`
  (Unix).
- `Handler`: `restGalleryHandler` as one sequential step (select, queue,
  drain, mask), including its two index panics, plus the startup prefetch,
  the initial page and the debounce hint.
- `Entries`: the `galleryImg` record and its zero value.

## Notes on the code's behaviour

- `getMaskInds` never clamps the start index to the list length. Take non-negative geometry and `firstRow >= prefetch`. The range is empty and ends at `n` exactly when `(firstRow - prefetch) * cols == n`; a 3 by 3 grid with 18 images at row 9 gives [18, 18). With positive `cols`, any larger row inverts the range. With 50 images, row 100 gives [291, 50), and `imgs[startIdx:endIdx]` in `maskImgView` would panic. `WindowOrderedIff` gives the exact condition for a well-formed range. `MaskImgView` requires it, and `RestGallery` models the panic as an outcome.
- `findToThumbnail` only loops while `i < end`, so an inverted conversion window selects nothing. The loop reads out of range only when the start is negative and below the end, which needs a negative `cols`.
- Negative flags crash the server at startup. If `rows*cols < 0`, `make(chan, 5*rows*cols)` panics. If both flags are negative, the startup `findToThumbnail(0)` goroutine reads a negative index, and nothing recovers that panic. `Startup` returns `Crashed` in both cases. For every configuration that survives startup, `SurvivingConfigScannable` shows that the selection loop of a later request never panics. The first `Panicked` branch of `RestGallery` is therefore reachable only with flags that crash at startup.
- `restGalleryHandler` selects and waits before it masks. A request whose display range is inverted therefore converts its conversion window first and then panics (`ConvertThenPanic`).
- The walk callback always returns nil, so `filepath.Walk` never reports an error and the `log.Fatal` after it is unreachable. An unreadable root gives an empty list. The callback skips visits for which the walk passes an error.
- An entry's only state is whether `ThumbPath` is empty. Two requests that both select before the workers run queue the same entry twice (`BackToBackRequestsQueueTwice`).

## Model

| member | source | states |
|---|---|---|
| Window.GetMaskInds | main.go:112-124 | the end never exceeds the list length; it is the smaller of the list length and `(firstRow+rows+prefetch)*cols`; the start is 0 inside the prefetch margin and `(firstRow-prefetch)*cols` otherwise, never clamped to the length; it is non-negative for non-negative `cols` |
| Window.WindowIsGridRows | main.go:112-124 | for positive `cols`, an index is in the window iff it is in the list and its grid row `i / cols` lies in `[firstRow - prefetch, firstRow + rows + prefetch)` |
| Window.WindowOrderedIff | main.go:113-122 | for non-negative inputs, `0 <= start <= end` holds iff `firstRow < prefetch` or `(firstRow - prefetch) * cols <= n`; the start is not clamped |
| Window.WiderPrefetchCovers | main.go:112-124 | a larger prefetch margin gives a window whose start is no later and whose end is no earlier |
| Window.ConversionCoversDisplay | main.go:135-136 | for non-negative geometry, the conversion window (margin `2*rows`, line 197) contains the display window (margin `rows`) |
| Window.LargeFirstRowInvertsWindow | main.go:116-122 | with a 3 by 3 grid over 50 images, row 100 yields the inverted range [291, 50) |
| Window.DisplayWindowExamples | main.go:112-124 | the worked cases (0,18), (21,48) and (0,5) for a 3 by 3 grid with a margin of 3, and the empty range [18, 18) for 18 images at row 9 |
| Mask.MaskImgView | main.go:138-140 | the masked list is as long as the image list; slot `i` is `imgs[i]` inside the display window and the all-empty zero entry elsewhere |
| Mask.MaskIdempotent | main.go:138-140 | masking a masked list again with the same row changes nothing |
| Mask.MaskShowsExactlyWindow | main.go:138-140 | when no image has an empty path, a masked slot is non-zero iff it lies in the display window |
| Thumbnails.Unconverted | main.go:198-203 | the indices of `[lo, hi)` whose thumbnail path is empty, all of them and only them, in ascending order |
| Thumbnails.Selection | main.go:197-203 | the indices sent for a range: exactly those in range, in the list, with an empty thumbnail path, ascending |
| Thumbnails.FindToThumbnail | main.go:195-204 | the loop sends exactly the unconverted indices of the conversion window in ascending order, and the counter grows by exactly the number sent |
| Thumbnails.ThumbPathFor | main.go:214 | the path written is `"thumbs/"` followed by a non-empty base name, so it is never empty |
| Thumbnails.Convert | main.go:206-215 | a worker's update sets that entry's thumbnail path to `"thumbs/" + Base(AbsPath)`, keeps its other fields, and leaves every other entry unchanged |
| Thumbnails.ConvertIdempotent | main.go:214 | converting an entry twice equals converting it once |
| Thumbnails.ConvertCommutes | main.go:214 | updates of two entries commute, so the order in which workers finish does not matter |
| Thumbnails.Request | main.go:197-203 | the queue gains exactly the conversion window's selection, in order, and the counter grows by the same amount; indices stay in range and the counter stays equal to the queue length |
| Thumbnails.WorkStep | main.go:207-215 | one receive-convert-`Done` step converts the entry at the head of the queue, leaves the rest of the queue, and lowers the counter by one, preserving the accounting |
| Thumbnails.Drain | main.go:206-216 | after the workers empty the queue, each queued entry is converted, every other entry is unchanged, and the counter has dropped by the number of tasks |
| Thumbnails.RequestThenDrain | main.go:170-171 | a request on an idle pool, once drained, leaves the counter at 0, every conversion-window entry with a thumbnail and every other entry untouched |
| Thumbnails.OverlappingRequestSkipsConverted | main.go:197-203 | after one request settles, a second selection emits exactly the unconverted entries of its window that were outside the first window |
| Thumbnails.SecondRequestSelectsNothing | main.go:199 | repeating a settled request selects nothing |
| Thumbnails.BackToBackRequestsQueueTwice | main.go:198-202 | two requests with no drain in between queue the same entry twice and count it twice |
| Thumbnails.SameBaseSharesThumbnail | main.go:77 | images with the same base name in different directories get the same thumbnail path |
| Paths.TrimPrefix | main.go:93 | when the prefix is present, prefix plus result is the input; otherwise the input is returned; the result is always a suffix |
| Paths.Base | main.go:214 | `"."` for the empty path; `"/"` for a path of slashes only; otherwise the last element of the path once trailing slashes are removed: a slash-free suffix preceded by a slash or by nothing |
| Paths.BaseOfJoin | main.go:77 | a non-empty slash-free name placed below any directory is that path's base |
| Scan.ToEntry | main.go:93 | a kept path becomes an entry with that `AbsPath`, no thumbnail, and a `ServerPath` of `"imgs/"` plus the path with the `dir` prefix removed when present (restored by prepending `dir`) |
| Scan.SelectImgs | main.go:90-98 | every selected entry has an image extension and is the entry of its own path; the list is no longer than the walk |
| Scan.SelectImgsAppend | main.go:94 | selecting from two consecutive walks is the concatenation of the two selections, so visiting order is kept |
| Scan.SelectImgsSingle | main.go:91-95 | one visit is kept iff the walk reported no error and the path ends in `.jpg`, `.jpeg` or `.png` |
| Scan.SelectedWasProduced | main.go:92-94 | every selected entry was produced by some visit that the walk reported without error and that has an image extension |
| Scan.ProducedIsSelected | main.go:92-94 | every such kept visit's entry appears in the list |
| Scan.SelectImgsMembership | main.go:90-98 | an entry is in the list iff some kept visit produced it |
| Scan.ImageBaseIsPlainImageName | main.go:77 | an image path's base name is a slash-free suffix of it that keeps the image extension |
| Scan.ShuffleDown | main.go:85 | the Fisher-Yates swaps from a position down to 1 keep length and multiset |
| Scan.RandomizeData | main.go:83-87 | shuffling with any draws yields a permutation of the list |
| Scan.ParseImgs | main.go:89-110 | the parsed list is a permutation of the selection, and equals it when not randomized |
| Handler.DebounceRows | main.go:173 | the debounce hint is the ceiling of `rows / 2`: the least `d` with `2*d >= rows` |
| Handler.Startup | main.go:244-246 | the process crashes at startup iff `rows*cols < 0` (negative channel size) or both flags are negative (negative index in the row-0 selection); otherwise the startup prefetch queues row 0's conversion-window selection: each unconverted entry once, in ascending order, and no other entry; the counter equals the queue length |
| Handler.StartupExamples | main.go:244-246 | flags (-1,-1) and (-1,3) crash at startup; (-1,0) and (3,3) start |
| Handler.SurvivingConfigScannable | main.go:195-199 | with any flags that survive startup, every conversion window can be scanned, so a request's selection loop never reads out of range |
| Handler.DrainedRequestCoversWindow | main.go:170-171 | after a request and the wait, every conversion-window entry has a thumbnail, whatever was queued before |
| Handler.RestGallery | main.go:170-174 | for a pool whose counter counts its queue: a negative, non-empty conversion range panics with nothing changed; otherwise every queued entry and every unconverted conversion-window entry gets its thumbnail, all else is unchanged, and the counter returns to 0; the view is rendered iff the display range is well formed; it is then as long as the list, holds the current entries inside the display window and zero entries outside it, each displayed entry has a thumbnail when geometry is non-negative, and the debounce hint is the ceiling of `rows / 2` |
| Handler.DrainedRequestEntries | main.go:170-171 | after a request and the wait, an entry is converted iff it was already queued or is an unconverted entry of the conversion window; every other entry is unchanged |
| Handler.ConvertThenPanic | main.go:170-172 | when the conversion range can be scanned but the display range is inverted, the request panics after converting its whole conversion window |
| Handler.ConvertThenPanicExample | main.go:136-139 | with a 3 by 3 grid over 50 images, row 20 has the conversion range [42, 50) and the inverted display range [51, 50) |
| Handler.GalleryPage | main.go:186-193 | the initial page masks the current list at row 0 without waiting for the workers |
| Handler.OverlappingRequestsShareWork | main.go:197-203 | an entry converted for one settled request is never selected again by a later overlapping request |

## Left out

- HTTP routing, JSON request decoding and response encoding, and response writing (main.go:162-193, main.go:251-262). `RestGallery` starts from a decoded `firstRow`.
- Template parsing and execution (main.go:149-160). The model stops at the masked list handed to the template.
- `getHwmStyle` and the CSS style strings (main.go:126-132), because they are floating-point formatting. The float debounce (main.go:173) is modelled in integers; see the `Handler.DebounceRows` line.
- `createPreview` (main.go:66-81): reading, resizing and encoding go through a foreign image library. A conversion always succeeds in the model, and the process-fatal `log.Fatal` on failure is not modelled.
- Thumbnails.ThumbPathFor: uses `Base(file)` for `Base(Join(thumbDir, Base(file)))`. The two agree for every path the scan selects, because its base is a plain image name (`ImageBaseIsPlainImageName`, `BaseOfJoin`). `filepath.Join`'s cleaning is not modelled.
- `filepath.Walk` itself, `os.MkdirAll`, `os.RemoveAll`, signal handling and shutdown (main.go:100, main.go:219-224, main.go:232-242). The walk is replaced by the sequence of visits it reports.
- Goroutines, the buffered channel's capacity and blocking, and the blocking of `wg.Wait()` (main.go:43-44, main.go:171, main.go:244-249). The workers run one at a time in FIFO order. `ConvertCommutes` shows that the order does not affect the result.
- Window.GetMaskInds: computes in unbounded integers. Go's `int` is 64-bit, so `(firstRow + rows + prefetch) * cols` wraps for a `firstRow` near 2^63 / `cols`.
- Scan.RandomizeData: the time-seeded random source is replaced by a sequence of draws. The model does not claim that every permutation is reachable or that permutations are uniform.
- Handler.RestGallery: requires the counter to equal the queue length. That holds from startup on, because the counter starts at 0 and every step keeps it. The wait is modelled as running every queued task, including tasks that other requests queued on the shared counter.
- Handler.DebounceRows: is exact only for |rows| <= 2^53. Above that, `float64(rows)` rounds; for `rows = 2^53 + 1` Go returns 2^52 where the model gives 2^52 + 1. float64 rounding is not modelled.
- Go strings are byte sequences (main.go:92-93, main.go:214). In Dafny a `string` is a sequence of Unicode characters, so a file name that is not valid UTF-8 cannot be represented. For valid UTF-8, the suffix and prefix tests and the splitting at '/' give the same results on characters as on bytes.
- `main.js` and `assets/main.js`: browser scrolling and DOM updates.

=== FILE: entries.dfy ===
/** The gallery's one record type: an image found by the directory scan. */
module Entries {

  /** One gallery image. `thumbPath` stays empty until a worker has produced a
      thumbnail for the image. */
  datatype GalleryImg = GalleryImg(absPath: string, serverPath: string, thumbPath: string)

  /** Go's zero value of the record: every field is the empty string. */
  const Zero: GalleryImg := GalleryImg("", "", "")

  /** True when the entry still needs a thumbnail. */
  predicate NeedsThumb(e: GalleryImg) {
    e.thumbPath == ""
  }

  /** `k` zero-value entries, as produced by `make([]galleryImg, k)`. */
  function Blank(k: nat): (r: seq<GalleryImg>)
    ensures |r| == k
    ensures forall i :: 0 <= i < k ==> r[i] == Zero
  {
    seq(k, _ => Zero)
  }
}

=== FILE: handler.dfy ===
/** The request path of the gallery, run sequentially: select and queue the
    conversion window, let the workers finish (`wg.Wait()`), then build the
    masked view for the display window. */
module Handler {
  import opened Entries
  import opened Window
  import opened Mask
  import opened Thumbnails

  /** The debounce hint `int(math.Ceil(float64(rows) / 2.0))`, in integers:
      the least `d` with `2 * d >= rows`. */
  function DebounceRows(rows: int): (d: int)
    ensures rows <= 2 * d < rows + 2
  {
    (rows + 1) / 2
  }

  /** What the REST handler hands to the template and the JSON encoder. */
  datatype Response = Response(view: seq<GalleryImg>, debounceRows: int)

  /** How a request ends: with a rendered response, or with a run-time panic
      from an out-of-range index or slice (which the HTTP server recovers,
      keeping whatever the workers already wrote). */
  datatype Outcome = Rendered(response: Response) | Panicked

  /** The state of the server after startup: running with its pool, or
      crashed by a run-time panic. */
  datatype Boot = Running(pool: Pool) | Crashed

  /** Startup: `make(chan, 5*rows*cols)` panics on a negative size, and then
      `findToThumbnail(0)` runs on an empty channel with a zero counter. An
      out-of-range index in that goroutine is not recovered and ends the
      process. */
  function Startup(imgs: seq<GalleryImg>, cfg: Config): (b: Boot)
    ensures b.Crashed? <==> cfg.rows * cfg.cols < 0 || (cfg.rows < 0 && cfg.cols < 0)
    ensures b.Running? ==>
      && Valid(b.pool) && b.pool.imgs == imgs
      && b.pool.toConv == Selection(imgs, ConversionWindow(cfg, |imgs|, 0))
      && Ascending(b.pool.toConv) && b.pool.wg == |b.pool.toConv|
      && forall i: int :: i in b.pool.toConv <==>
           Contains(ConversionWindow(cfg, |imgs|, 0), i) && 0 <= i < |imgs| && NeedsThumb(imgs[i])
  {
    if 5 * cfg.rows * cfg.cols < 0 then Crashed
    else if !Scannable(ConversionWindow(cfg, |imgs|, 0)) then
      assert cfg.rows < 0 && cfg.cols < 0;
      Crashed
    else
      Running(Request(Pool(imgs, [], 0), cfg, 0))
  }

  /** Both negative flags pass the channel size but crash the startup
      selection; mixed signs crash at the channel size; a zero flag is
      harmless. */
  lemma StartupExamples(imgs: seq<GalleryImg>)
    ensures Startup(imgs, Config(-1, -1)).Crashed?
    ensures Startup(imgs, Config(-1, 3)).Crashed?
    ensures Startup(imgs, Config(-1, 0)).Running?
    ensures Startup(imgs, Config(3, 3)).Running?
  {
  }

  /** With any flags the server survives startup with, every later
      conversion window can be scanned, so the selection loop of a request
      never panics. */
  lemma {:induction false} SurvivingConfigScannable(imgs: seq<GalleryImg>, cfg: Config, firstRow: int)
    requires Startup(imgs, cfg).Running?
    ensures Scannable(ConversionWindow(cfg, |imgs|, firstRow))
  {
    var w := ConversionWindow(cfg, |imgs|, firstRow);
    if cfg.cols < 0 {
      assert cfg.rows == 0;
      assert w.end <= firstRow * cfg.cols;
      if firstRow >= 0 {
        assert w.start == firstRow * cfg.cols;
      }
    }
  }

  /** After a request and the drain, every entry of a conversion window has a
      thumbnail, whatever else was queued before. */
  lemma {:induction false} DrainedRequestCoversWindow(p: Pool, cfg: Config, firstRow: int, i: int)
    requires QueueInRange(p)
    requires Scannable(ConversionWindow(cfg, |p.imgs|, firstRow))
    requires 0 <= i < |p.imgs| && Contains(ConversionWindow(cfg, |p.imgs|, firstRow), i)
    ensures !NeedsThumb(Drain(Request(p, cfg, firstRow)).imgs[i])
  {
    var r := Request(p, cfg, firstRow);
    var sel := Selection(p.imgs, ConversionWindow(cfg, |p.imgs|, firstRow));
    assert r.toConv == p.toConv + sel;
    if NeedsThumb(p.imgs[i]) {
      assert i in sel;
      assert i in r.toConv;
    }
  }

  /** The entries after a request has been queued and drained: every entry
      already queued, and every unconverted entry of the conversion window,
      gets its thumbnail; all else is unchanged. */
  lemma {:induction false} DrainedRequestEntries(p: Pool, cfg: Config, firstRow: int)
    requires QueueInRange(p)
    requires Scannable(ConversionWindow(cfg, |p.imgs|, firstRow))
    ensures var q := Drain(Request(p, cfg, firstRow));
      |q.imgs| == |p.imgs| &&
      forall i :: 0 <= i < |p.imgs| ==>
        q.imgs[i] == (if i in p.toConv || (Contains(ConversionWindow(cfg, |p.imgs|, firstRow), i) && NeedsThumb(p.imgs[i]))
                      then Converted(p.imgs[i]) else p.imgs[i])
  {
    var w := ConversionWindow(cfg, |p.imgs|, firstRow);
    var r := Request(p, cfg, firstRow);
    forall i | 0 <= i < |p.imgs|
      ensures i in r.toConv <==> i in p.toConv || (Contains(w, i) && NeedsThumb(p.imgs[i]))
    {
      assert i in r.toConv <==> i in p.toConv || i in Selection(p.imgs, w);
    }
  }

  /** `restGalleryHandler` for a decoded `firstRow`, on a pool whose counter
      counts its queue. If the conversion window starts below 0 and is not
      empty, the selection loop panics at its first index and nothing
      changes. Otherwise the request is queued and every task is drained
      before the wait returns. The masked view is then built, or the slice in
      `maskImgView` panics when the display window is not well formed. */
  function RestGallery(p: Pool, cfg: Config, firstRow: int): (r: (Pool, Outcome))
    requires Valid(p)
    ensures !Scannable(ConversionWindow(cfg, |p.imgs|, firstRow)) ==> r == (p, Panicked)
    ensures Scannable(ConversionWindow(cfg, |p.imgs|, firstRow)) ==>
      && r.0.toConv == [] && r.0.wg == 0 && |r.0.imgs| == |p.imgs|
      && forall i :: 0 <= i < |p.imgs| ==>
        r.0.imgs[i] == (if i in p.toConv || (Contains(ConversionWindow(cfg, |p.imgs|, firstRow), i) && NeedsThumb(p.imgs[i]))
                        then Converted(p.imgs[i]) else p.imgs[i])
    ensures r.1.Rendered? <==>
      Scannable(ConversionWindow(cfg, |p.imgs|, firstRow)) && Maskable(DisplayWindow(cfg, |p.imgs|, firstRow))
    ensures r.1.Rendered? ==>
      && |r.1.response.view| == |p.imgs|
      && (forall i :: 0 <= i < |p.imgs| ==>
            r.1.response.view[i] == (if Contains(DisplayWindow(cfg, |p.imgs|, firstRow), i) then r.0.imgs[i] else Zero))
      && cfg.rows <= 2 * r.1.response.debounceRows < cfg.rows + 2
    ensures r.1.Rendered? && cfg.rows >= 0 && cfg.cols >= 0 ==>
      forall i :: 0 <= i < |p.imgs| && Contains(DisplayWindow(cfg, |p.imgs|, firstRow), i) ==>
        !NeedsThumb(r.1.response.view[i])
  {
    if !Scannable(ConversionWindow(cfg, |p.imgs|, firstRow)) then (p, Panicked)
    else
      DrainedRequestEntries(p, cfg, firstRow);
      var q := Drain(Request(p, cfg, firstRow));
      if !Maskable(DisplayWindow(cfg, |p.imgs|, firstRow)) then (q, Panicked)
      else
        var view := MaskImgView(q.imgs, cfg, firstRow);
        assert cfg.rows >= 0 && cfg.cols >= 0 ==>
          forall i :: 0 <= i < |p.imgs| && Contains(DisplayWindow(cfg, |p.imgs|, firstRow), i) ==>
            !NeedsThumb(q.imgs[i]) by {
          if cfg.rows >= 0 && cfg.cols >= 0 {
            ConversionCoversDisplay(cfg, |p.imgs|, firstRow);
            forall i | 0 <= i < |p.imgs| && Contains(DisplayWindow(cfg, |p.imgs|, firstRow), i)
              ensures !NeedsThumb(q.imgs[i])
            {
              DrainedRequestCoversWindow(p, cfg, firstRow, i);
            }
          }
        }
        (q, Rendered(Response(view, DebounceRows(cfg.rows))))
  }

  /** When the conversion window can be scanned but the display window
      cannot be sliced, the request panics only after its conversions are
      done: every entry of the conversion window keeps a thumbnail. */
  lemma ConvertThenPanic(p: Pool, cfg: Config, firstRow: int, i: int)
    requires Valid(p)
    requires Scannable(ConversionWindow(cfg, |p.imgs|, firstRow))
    requires !Maskable(DisplayWindow(cfg, |p.imgs|, firstRow))
    requires 0 <= i < |p.imgs| && Contains(ConversionWindow(cfg, |p.imgs|, firstRow), i)
    ensures RestGallery(p, cfg, firstRow).1 == Panicked
    ensures !NeedsThumb(RestGallery(p, cfg, firstRow).0.imgs[i])
  {
    DrainedRequestCoversWindow(p, cfg, firstRow, i);
  }

  /** With a 3 by 3 grid over 50 images, row 20 has the conversion window
      [42, 50) and the display window [51, 50): entries 42 to 49 are
      converted, then the slice panics. */
  lemma ConvertThenPanicExample()
    ensures ConversionWindow(Config(3, 3), 50, 20) == Range(42, 50)
    ensures DisplayWindow(Config(3, 3), 50, 20) == Range(51, 50)
    ensures Scannable(Range(42, 50)) && !Maskable(Range(51, 50))
  {
  }

  /** The initial page (`galleryHandler`) renders row 0 without waiting for
      the workers; its view is the masked current list. */
  function GalleryPage(p: Pool, cfg: Config): (view: seq<GalleryImg>)
    requires Maskable(DisplayWindow(cfg, |p.imgs|, 0))
    ensures |view| == |p.imgs|
    ensures forall i :: 0 <= i < |view| ==>
      view[i] == (if Contains(DisplayWindow(cfg, |p.imgs|, 0), i) then p.imgs[i] else Zero)
  {
    MaskImgView(p.imgs, cfg, 0)
  }

  /** Two requests whose conversion windows overlap, such as [0, 18) and
      [9, 27): once the first has settled, the second never queues an entry
      of the first window, so shared entries are converted once. */
  lemma OverlappingRequestsShareWork(p: Pool, cfg: Config, first1: int, first2: int, i: int)
    requires Valid(p) && p.toConv == [] && cfg.cols >= 0
    requires 0 <= i < |p.imgs|
    requires Contains(ConversionWindow(cfg, |p.imgs|, first1), i)
    ensures var w1 := ConversionWindow(cfg, |p.imgs|, first1);
      var w2 := ConversionWindow(cfg, |p.imgs|, first2);
      Scannable(w1) && Scannable(w2) &&
      i !in Selection(Drain(Request(p, cfg, first1)).imgs, w2)
  {
    OverlappingRequestSkipsConverted(p, cfg, first1, first2, i);
  }
}

=== FILE: mask.dfy ===
/** The list-building part of `maskImgView`: the template receives a list as
    long as the image list in which only the display window holds real
    entries. */
module Mask {
  import opened Entries
  import opened Window

  /** The slicing in `maskImgView` needs a start that is neither negative nor
      past the end; `getMaskInds` does not guarantee it. */
  predicate Maskable(w: Range) {
    0 <= w.start <= w.end
  }

  /** Leading zero entries, the window's real entries, trailing zero entries. */
  function MaskImgView(imgs: seq<GalleryImg>, cfg: Config, firstRow: int): (r: seq<GalleryImg>)
    requires Maskable(DisplayWindow(cfg, |imgs|, firstRow))
    ensures |r| == |imgs|
    ensures forall i :: 0 <= i < |r| ==>
      r[i] == (if Contains(DisplayWindow(cfg, |imgs|, firstRow), i) then imgs[i] else Zero)
  {
    var w := DisplayWindow(cfg, |imgs|, firstRow);
    Blank(w.start) + imgs[w.start..w.end] + Blank(|imgs| - w.end)
  }

  /** Masking a masked list again with the same scroll position changes
      nothing. */
  lemma MaskIdempotent(imgs: seq<GalleryImg>, cfg: Config, firstRow: int)
    requires Maskable(DisplayWindow(cfg, |imgs|, firstRow))
    ensures MaskImgView(MaskImgView(imgs, cfg, firstRow), cfg, firstRow) == MaskImgView(imgs, cfg, firstRow)
  {
  }

  /** When no scanned image has an empty path, a slot of the masked list holds
      a real entry exactly when it lies in the display window. */
  lemma MaskShowsExactlyWindow(imgs: seq<GalleryImg>, cfg: Config, firstRow: int, i: int)
    requires Maskable(DisplayWindow(cfg, |imgs|, firstRow))
    requires forall k :: 0 <= k < |imgs| ==> imgs[k].absPath != ""
    requires 0 <= i < |imgs|
    ensures MaskImgView(imgs, cfg, firstRow)[i] != Zero <==> Contains(DisplayWindow(cfg, |imgs|, firstRow), i)
  {
  }
}

=== FILE: paths.dfy ===
/** The slash-separated string helpers the gallery uses from Go's `strings`
    and `path/filepath` packages, on Unix. */
module Paths {

  predicate HasPrefix(s: string, p: string) {
    |p| <= |s| && s[..|p|] == p
  }

  predicate HasSuffix(s: string, x: string) {
    |x| <= |s| && s[|s| - |x|..] == x
  }

  predicate NoSlash(s: string) {
    forall k :: 0 <= k < |s| ==> s[k] != '/'
  }

  /** `strings.TrimPrefix`: drops `p` from the front of `s` when it is there. */
  function TrimPrefix(s: string, p: string): (r: string)
    ensures HasPrefix(s, p) ==> p + r == s
    ensures !HasPrefix(s, p) ==> r == s
    ensures HasSuffix(s, r)
  {
    if HasPrefix(s, p) then s[|p|..] else s
  }

  /** `s` without its trailing run of slashes. */
  function TrimTrailingSlashes(s: string): (r: string)
    ensures HasPrefix(s, r)
    ensures r == [] || r[|r| - 1] != '/'
    ensures forall k :: |r| <= k < |s| ==> s[k] == '/'
  {
    if |s| > 0 && s[|s| - 1] == '/' then TrimTrailingSlashes(s[..|s| - 1]) else s
  }

  /** The part of `s` after its last slash (all of `s` when it has none). */
  function LastElement(s: string): (r: string)
    ensures HasSuffix(s, r)
    ensures NoSlash(r)
    ensures |r| < |s| ==> s[|s| - |r| - 1] == '/'
  {
    if |s| == 0 then []
    else if s[|s| - 1] == '/' then []
    else LastElement(s[..|s| - 1]) + [s[|s| - 1]]
  }

  /** `filepath.Base`: the last element of a path, after trailing slashes are
      removed; "." for the empty path and "/" for a path of slashes only. */
  function Base(path: string): (r: string)
    ensures r != []
    ensures r == "/" || NoSlash(r)
    ensures path == [] ==> r == "."
    ensures path != [] && TrimTrailingSlashes(path) == [] ==> r == "/"
    ensures var t := TrimTrailingSlashes(path);
      t != [] ==> NoSlash(r) && HasSuffix(t, r) && (|r| == |t| || t[|t| - |r| - 1] == '/')
  {
    if path == [] then "."
    else
      var trimmed := TrimTrailingSlashes(path);
      var last := LastElement(trimmed);
      if last == [] then "/" else last
  }

  /** A path with no trailing slash keeps its last element as its base, so the
      base is a suffix of the path. */
  lemma BaseOfUntrimmed(path: string)
    requires path != [] && path[|path| - 1] != '/'
    ensures Base(path) == LastElement(path)
    ensures HasSuffix(path, Base(path))
  {
  }

  /** Appending a plain name below any directory makes that name the base. */
  lemma {:induction false} BaseOfJoin(dir: string, name: string)
    requires name != [] && NoSlash(name)
    ensures Base(dir + "/" + name) == name
  {
    LastElementOfJoin(dir, name);
  }

  lemma {:induction false} LastElementOfJoin(dir: string, name: string)
    requires NoSlash(name)
    ensures LastElement(dir + "/" + name) == name
    decreases |name|
  {
    var s := dir + "/" + name;
    if name == [] {
      assert s[|s| - 1] == '/';
    } else {
      var init := name[..|name| - 1];
      assert s[..|s| - 1] == dir + "/" + init;
      assert s[|s| - 1] == name[|name| - 1];
      LastElementOfJoin(dir, init);
      assert init + [name[|name| - 1]] == name;
    }
  }

  /** A slash-free suffix of a path is also a suffix of its last element. */
  lemma LastElementKeepsPlainSuffix(s: string, x: string)
    requires HasSuffix(s, x) && NoSlash(x)
    ensures HasSuffix(LastElement(s), x)
  {
    var b := LastElement(s);
    assert b[|b| - |x|..] == s[|s| - |x|..];
  }

  /** A path ending in a non-empty slash-free name has a base that is a
      suffix of the path and still ends in that name. */
  lemma BaseKeepsPlainSuffix(path: string, x: string)
    requires x != [] && HasSuffix(path, x) && NoSlash(x)
    ensures NoSlash(Base(path)) && HasSuffix(path, Base(path)) && HasSuffix(Base(path), x)
  {
    assert path[|path| - 1] == x[|x| - 1];
    BaseOfUntrimmed(path);
    LastElementKeepsPlainSuffix(path, x);
  }
}

=== FILE: scan.dfy ===
/** Building the image list: the `selectImgs` walk callback of `parseImgs`
    over the paths the directory walk reports, and the optional shuffle. */
module Scan {
  import opened Entries
  import opened Paths

  /** One call of the walk callback: the visited path and whether the walk
      reported an error for it. */
  datatype Visit = Visit(path: string, failed: bool)

  /** The case-sensitive extension test. */
  predicate IsImagePath(path: string) {
    HasSuffix(path, ".jpg") || HasSuffix(path, ".jpeg") || HasSuffix(path, ".png")
  }

  predicate Kept(v: Visit) {
    !v.failed && IsImagePath(v.path)
  }

  /** The entry recorded for a kept path. `dir` is the `-dir` flag: the prefix
      trimmed is the flag's value, not the walk's root argument. */
  function ToEntry(path: string, dir: string): (e: GalleryImg)
    ensures e.absPath == path && NeedsThumb(e)
    ensures HasPrefix(e.serverPath, "imgs/")
    ensures HasPrefix(path, dir) ==> dir + e.serverPath[|"imgs/"|..] == path
    ensures !HasPrefix(path, dir) ==> e.serverPath[|"imgs/"|..] == path
  {
    GalleryImg(path, "imgs/" + TrimPrefix(path, dir), "")
  }

  /** The list `parseImgs` accumulates, in visiting order. */
  function SelectImgs(visits: seq<Visit>, dir: string): (r: seq<GalleryImg>)
    ensures |r| <= |visits|
    ensures forall k :: 0 <= k < |r| ==> IsImagePath(r[k].absPath) && r[k] == ToEntry(r[k].absPath, dir)
    decreases |visits|
  {
    if visits == [] then []
    else
      var v := visits[|visits| - 1];
      SelectImgs(visits[..|visits| - 1], dir) + (if Kept(v) then [ToEntry(v.path, dir)] else [])
  }

  /** Selection distributes over concatenation of walks: kept paths stay in
      visiting order. */
  lemma {:induction false} SelectImgsAppend(a: seq<Visit>, b: seq<Visit>, dir: string)
    ensures SelectImgs(a + b, dir) == SelectImgs(a, dir) + SelectImgs(b, dir)
    decreases |b|
  {
    if b == [] {
      assert a + b == a;
    } else {
      var init := b[..|b| - 1];
      assert (a + b)[..|a + b| - 1] == a + init;
      assert (a + b)[|a + b| - 1] == b[|b| - 1];
      SelectImgsAppend(a, init, dir);
    }
  }

  /** A single visit is kept exactly when the walk reported no error and the
      path has an image extension. */
  lemma SelectImgsSingle(v: Visit, dir: string)
    ensures SelectImgs([v], dir) == if Kept(v) then [ToEntry(v.path, dir)] else []
  {
    assert [v][..0] == [];
  }

  /** Visit `v` is kept and yields entry `e`. */
  predicate Produces(v: Visit, dir: string, e: GalleryImg) {
    Kept(v) && e == ToEntry(v.path, dir)
  }

  /** Every selected entry comes from some kept visit. */
  lemma {:induction false} SelectedWasProduced(visits: seq<Visit>, dir: string, e: GalleryImg)
    requires e in SelectImgs(visits, dir)
    ensures exists k :: 0 <= k < |visits| && Produces(visits[k], dir, e)
    decreases |visits|
  {
    var init, v := visits[..|visits| - 1], visits[|visits| - 1];
    if e in SelectImgs(init, dir) {
      SelectedWasProduced(init, dir, e);
      var k :| 0 <= k < |init| && Produces(init[k], dir, e);
      assert visits[k] == init[k];
    } else {
      assert Produces(visits[|visits| - 1], dir, e);
    }
  }

  /** Every kept visit's entry is selected. */
  lemma {:induction false} ProducedIsSelected(visits: seq<Visit>, dir: string, k: nat)
    requires k < |visits| && Kept(visits[k])
    ensures ToEntry(visits[k].path, dir) in SelectImgs(visits, dir)
    decreases |visits|
  {
    var init := visits[..|visits| - 1];
    if k < |init| {
      assert init[k] == visits[k];
      ProducedIsSelected(init, dir, k);
    }
  }

  /** An entry is in the list exactly when some kept visit produced it. */
  lemma SelectImgsMembership(visits: seq<Visit>, dir: string, e: GalleryImg)
    ensures e in SelectImgs(visits, dir) <==> exists k :: 0 <= k < |visits| && Produces(visits[k], dir, e)
  {
    if e in SelectImgs(visits, dir) {
      SelectedWasProduced(visits, dir, e);
    }
    if exists k :: 0 <= k < |visits| && Produces(visits[k], dir, e) {
      var k :| 0 <= k < |visits| && Produces(visits[k], dir, e);
      ProducedIsSelected(visits, dir, k);
    }
  }

  /** An image path's base name is a plain name that still carries the image
      extension, so the thumbnail keeps the format of its source. */
  lemma ImageBaseIsPlainImageName(path: string)
    requires IsImagePath(path)
    ensures NoSlash(Base(path)) && HasSuffix(path, Base(path)) && IsImagePath(Base(path))
  {
    if HasSuffix(path, ".jpg") {
      BaseKeepsPlainSuffix(path, ".jpg");
    } else if HasSuffix(path, ".jpeg") {
      BaseKeepsPlainSuffix(path, ".jpeg");
    } else {
      BaseKeepsPlainSuffix(path, ".png");
    }
  }

  function Swap<T>(s: seq<T>, i: nat, j: nat): (r: seq<T>)
    requires i < |s| && j < |s|
    ensures |r| == |s| && multiset(r) == multiset(s)
  {
    s[i := s[j]][j := s[i]]
  }

  /** `rand.Shuffle`'s Fisher-Yates loop from position `i` down to 1, with the
      random draws given as a parameter: position `i` is swapped with
      `draws[0] % (i + 1)`, and with 0 once the draws run out. */
  function ShuffleDown<T>(s: seq<T>, i: nat, draws: seq<nat>): (r: seq<T>)
    requires i < |s|
    ensures |r| == |s| && multiset(r) == multiset(s)
    decreases i
  {
    if i == 0 then s
    else
      var j := if draws == [] then 0 else draws[0] % (i + 1);
      ShuffleDown(Swap(s, i, j), i - 1, if draws == [] then [] else draws[1..])
  }

  /** `randomizeData`: a permutation of the list chosen by the draws. */
  function RandomizeData<T>(s: seq<T>, draws: seq<nat>): (r: seq<T>)
    ensures |r| == |s| && multiset(r) == multiset(s)
  {
    if |s| == 0 then s else ShuffleDown(s, |s| - 1, draws)
  }

  /** `parseImgs`: the selected list, shuffled when `randomize` is set. */
  function ParseImgs(visits: seq<Visit>, dir: string, randomize: bool, draws: seq<nat>): (r: seq<GalleryImg>)
    ensures multiset(r) == multiset(SelectImgs(visits, dir))
    ensures !randomize ==> r == SelectImgs(visits, dir)
  {
    var selected := SelectImgs(visits, dir);
    if randomize then RandomizeData(selected, draws) else selected
  }
}

=== FILE: thumbnails.dfy ===
/** Thumbnail bookkeeping of `findToThumbnail` and the `thumbnailImgs`
    workers, run sequentially: the channel is a FIFO sequence of indices and
    the WaitGroup is an integer counter. */
module Thumbnails {
  import opened Entries
  import opened Window
  import Paths

  predicate Ascending(s: seq<nat>) {
    forall a, b :: 0 <= a < b < |s| ==> s[a] < s[b]
  }

  /** The indices in [lo, hi) whose entry has no thumbnail, ascending. */
  function Unconverted(imgs: seq<GalleryImg>, lo: nat, hi: int): (r: seq<nat>)
    requires hi <= |imgs|
    ensures forall k :: 0 <= k < |r| ==> lo <= r[k] < hi && NeedsThumb(imgs[r[k]])
    ensures forall i :: lo <= i < hi && NeedsThumb(imgs[i]) ==> i in r
    ensures Ascending(r)
    decreases hi - lo
  {
    if hi <= lo then []
    else Unconverted(imgs, lo, hi - 1) + (if NeedsThumb(imgs[hi - 1]) then [hi - 1] else [])
  }

  /** The loop of `findToThumbnail` reads `imgs[i]` only for start <= i < end,
      so it needs a non-negative start unless the range is empty. */
  predicate Scannable(w: Range) {
    0 <= w.start || w.end <= w.start
  }

  /** What `findToThumbnail` sends on the channel for range `w`. */
  function Selection(imgs: seq<GalleryImg>, w: Range): (r: seq<nat>)
    requires w.end <= |imgs| && Scannable(w)
    ensures forall i: int :: i in r <==> Contains(w, i) && 0 <= i < |imgs| && NeedsThumb(imgs[i])
    ensures Ascending(r)
  {
    if w.start < w.end then Unconverted(imgs, w.start, w.end) else []
  }

  /** `findToThumbnail(firstRow)`: walks the conversion window in index order,
      and for each entry without a thumbnail adds one to the counter and sends
      its index. */
  method FindToThumbnail(imgs: seq<GalleryImg>, cfg: Config, firstRow: int, counter: int)
    returns (toConv: seq<nat>, counter': int)
    requires Scannable(ConversionWindow(cfg, |imgs|, firstRow))
    ensures toConv == Selection(imgs, ConversionWindow(cfg, |imgs|, firstRow))
    ensures forall i: int :: i in toConv <==>
      Contains(ConversionWindow(cfg, |imgs|, firstRow), i) && 0 <= i < |imgs| && NeedsThumb(imgs[i])
    ensures Ascending(toConv)
    ensures counter' == counter + |toConv|
  {
    var w := ConversionWindow(cfg, |imgs|, firstRow);
    toConv, counter' := [], counter;
    if w.start < w.end {
      var i: nat := w.start;
      while i < w.end
        invariant w.start <= i <= w.end
        invariant toConv == Unconverted(imgs, w.start, i)
        invariant counter' == counter + |toConv|
      {
        if NeedsThumb(imgs[i]) {
          counter' := counter' + 1;
          toConv := toConv + [i];
        }
        i := i + 1;
      }
    }
  }

  /** The path a worker writes into an entry: "thumbs/" and the base name of
      the source image. */
  function ThumbPathFor(absPath: string): (t: string)
    ensures Paths.HasPrefix(t, "thumbs/")
    ensures t != "" && t != "thumbs/"
  {
    "thumbs/" + Paths.Base(absPath)
  }

  /** An entry after its thumbnail has been written. */
  function Converted(e: GalleryImg): GalleryImg {
    e.(thumbPath := ThumbPathFor(e.absPath))
  }

  /** A worker's update of entry `i`: only that entry's thumbnail path
      changes, and it becomes non-empty. */
  function Convert(imgs: seq<GalleryImg>, i: nat): (r: seq<GalleryImg>)
    requires i < |imgs|
    ensures |r| == |imgs|
    ensures r[i].absPath == imgs[i].absPath && r[i].serverPath == imgs[i].serverPath
    ensures r[i].thumbPath == ThumbPathFor(imgs[i].absPath) && !NeedsThumb(r[i])
    ensures forall j :: 0 <= j < |r| && j != i ==> r[j] == imgs[j]
  {
    imgs[i := Converted(imgs[i])]
  }

  /** Converting an entry twice is converting it once. */
  lemma ConvertIdempotent(imgs: seq<GalleryImg>, i: nat)
    requires i < |imgs|
    ensures Convert(Convert(imgs, i), i) == Convert(imgs, i)
  {
  }

  /** Two workers' updates commute, so the order in which workers finish does
      not matter. */
  lemma ConvertCommutes(imgs: seq<GalleryImg>, i: nat, j: nat)
    requires i < |imgs| && j < |imgs|
    ensures Convert(Convert(imgs, i), j) == Convert(Convert(imgs, j), i)
  {
  }

  /** The shared state: the image list, the channel's pending indices and the
      WaitGroup counter. */
  datatype Pool = Pool(imgs: seq<GalleryImg>, toConv: seq<nat>, wg: int)

  predicate QueueInRange(p: Pool) {
    forall k :: 0 <= k < |p.toConv| ==> p.toConv[k] < |p.imgs|
  }

  /** Every queued index is in range and the counter counts exactly the
      queued tasks. */
  predicate Valid(p: Pool) {
    QueueInRange(p) && p.wg == |p.toConv|
  }

  /** A request's `findToThumbnail` call: the selection joins the queue and
      the counter. */
  function Request(p: Pool, cfg: Config, firstRow: int): (r: Pool)
    requires Scannable(ConversionWindow(cfg, |p.imgs|, firstRow))
    ensures r.imgs == p.imgs
    ensures r.toConv == p.toConv + Selection(p.imgs, ConversionWindow(cfg, |p.imgs|, firstRow))
    ensures QueueInRange(p) ==> QueueInRange(r)
    ensures Valid(p) ==> Valid(r)
    ensures r.wg - p.wg == |r.toConv| - |p.toConv|
  {
    var sel := Selection(p.imgs, ConversionWindow(cfg, |p.imgs|, firstRow));
    Pool(p.imgs, p.toConv + sel, p.wg + |sel|)
  }

  /** One worker iteration: take the oldest index, convert it, `wg.Done()`. */
  function WorkStep(p: Pool): (r: Pool)
    requires |p.toConv| > 0 && p.toConv[0] < |p.imgs|
    ensures r.imgs == Convert(p.imgs, p.toConv[0]) && r.toConv == p.toConv[1..]
    ensures Valid(p) ==> Valid(r)
    ensures r.wg == p.wg - 1
  {
    Pool(Convert(p.imgs, p.toConv[0]), p.toConv[1..], p.wg - 1)
  }

  /** Workers run until the queue is empty. Afterwards the queued entries are
      converted, every other entry is as it was, and the counter has dropped
      by the number of tasks. */
  function Drain(p: Pool): (r: Pool)
    requires QueueInRange(p)
    ensures r.toConv == []
    ensures r.wg == p.wg - |p.toConv|
    ensures |r.imgs| == |p.imgs|
    ensures forall j :: 0 <= j < |r.imgs| ==>
      r.imgs[j] == (if j in p.toConv then Converted(p.imgs[j]) else p.imgs[j])
    decreases |p.toConv|
  {
    if p.toConv == [] then p else Drain(WorkStep(p))
  }

  /** A request on an idle pool, followed by the workers, leaves the counter
      at zero (so `wg.Wait()` returns), every entry of the conversion window
      with a thumbnail, and every other entry untouched. */
  lemma {:induction false} RequestThenDrain(p: Pool, cfg: Config, firstRow: int)
    requires Valid(p) && p.toConv == []
    requires Scannable(ConversionWindow(cfg, |p.imgs|, firstRow))
    ensures var q := Drain(Request(p, cfg, firstRow));
      && Valid(q) && q.wg == 0
      && |q.imgs| == |p.imgs|
      && (forall i :: 0 <= i < |q.imgs| && Contains(ConversionWindow(cfg, |p.imgs|, firstRow), i) ==>
            !NeedsThumb(q.imgs[i]))
      && (forall i :: 0 <= i < |q.imgs| && !Contains(ConversionWindow(cfg, |p.imgs|, firstRow), i) ==>
            q.imgs[i] == p.imgs[i])
  {
    var w := ConversionWindow(cfg, |p.imgs|, firstRow);
    var r := Request(p, cfg, firstRow);
    var q := Drain(r);
    assert r.toConv == Selection(p.imgs, w);
    forall i | 0 <= i < |q.imgs| && Contains(w, i)
      ensures !NeedsThumb(q.imgs[i])
    {
      if i !in r.toConv {
        assert !NeedsThumb(p.imgs[i]);
      }
    }
  }

  /** Once a request's tasks are done, the next selection over any window
      emits exactly the entries of that window that lay outside the first one
      and had no thumbnail: overlapping requests never convert a shared entry
      twice. */
  lemma {:induction false} OverlappingRequestSkipsConverted(p: Pool, cfg: Config, first1: int, first2: int, i: int)
    requires Valid(p) && p.toConv == []
    requires Scannable(ConversionWindow(cfg, |p.imgs|, first1))
    requires Scannable(ConversionWindow(cfg, |p.imgs|, first2))
    ensures var q := Drain(Request(p, cfg, first1));
      var w1 := ConversionWindow(cfg, |p.imgs|, first1);
      var w2 := ConversionWindow(cfg, |p.imgs|, first2);
      i in Selection(q.imgs, w2) <==>
        Contains(w2, i) && !Contains(w1, i) && 0 <= i < |p.imgs| && NeedsThumb(p.imgs[i])
  {
    RequestThenDrain(p, cfg, first1);
  }

  /** Repeating a request after its tasks are done selects nothing. */
  lemma SecondRequestSelectsNothing(p: Pool, cfg: Config, firstRow: int)
    requires Valid(p) && p.toConv == []
    requires Scannable(ConversionWindow(cfg, |p.imgs|, firstRow))
    ensures var q := Drain(Request(p, cfg, firstRow));
      Selection(q.imgs, ConversionWindow(cfg, |p.imgs|, firstRow)) == []
  {
    var q := Drain(Request(p, cfg, firstRow));
    var sel := Selection(q.imgs, ConversionWindow(cfg, |p.imgs|, firstRow));
    if sel != [] {
      OverlappingRequestSkipsConverted(p, cfg, firstRow, firstRow, sel[0]);
    }
  }

  /** Without a drain in between, two requests for the same window queue the
      same entry twice and count it twice: the sequential trace of two
      handlers that both pass the empty-thumbnail check. */
  lemma BackToBackRequestsQueueTwice()
    ensures var p := Pool([GalleryImg("a.jpg", "imgs/a.jpg", "")], [], 0);
      var q := Request(Request(p, Config(1, 1), 0), Config(1, 1), 0);
      q.toConv == [0, 0] && q.wg == 2
  {
    var p := Pool([GalleryImg("a.jpg", "imgs/a.jpg", "")], [], 0);
    var w := ConversionWindow(Config(1, 1), 1, 0);
    assert w == Range(0, 1);
    assert Selection(p.imgs, w) == [0];
  }

  /** Images with the same base name in different directories share one
      thumbnail path, so the later conversion overwrites the earlier file. */
  lemma SameBaseSharesThumbnail(dir1: string, dir2: string, name: string)
    requires name != [] && Paths.NoSlash(name)
    ensures ThumbPathFor(dir1 + "/" + name) == ThumbPathFor(dir2 + "/" + name) == "thumbs/" + name
  {
    Paths.BaseOfJoin(dir1, name);
    Paths.BaseOfJoin(dir2, name);
  }
}

=== FILE: window.dfy ===
/** The window arithmetic of `getMaskInds`: which slice of the image list a
    scroll position needs, given the grid geometry and a prefetch margin. */
module Window {

  /** Grid geometry: the `rows` and `cols` flags, which the server reads as
      globals. */
  datatype Config = Config(rows: int, cols: int)

  /** A half-open index range [start, end). */
  datatype Range = Range(start: int, end: int)

  predicate Contains(w: Range, i: int) {
    w.start <= i < w.end
  }

  /** `getMaskInds(firstRow, prefetch)` over a list of `n` images. The end is
      clamped to `n`; the start is floored at 0 only below the prefetch margin
      and is never clamped to `n`. */
  function GetMaskInds(cfg: Config, n: nat, firstRow: int, prefetch: int): (w: Range)
    ensures w.end <= n
    ensures w.end <= (firstRow + cfg.rows + prefetch) * cfg.cols
    ensures w.end == n || w.end == (firstRow + cfg.rows + prefetch) * cfg.cols
    ensures firstRow < prefetch ==> w.start == 0
    ensures firstRow >= prefetch ==> w.start == (firstRow - prefetch) * cfg.cols
    ensures cfg.cols >= 0 ==> w.start >= 0
  {
    var end := (firstRow + cfg.rows + prefetch) * cfg.cols;
    var start := if firstRow >= prefetch then (firstRow - prefetch) * cfg.cols else 0;
    Range(start, if end > n then n else end)
  }

  /** The window `maskImgView` displays: one screen of prefetch. */
  function DisplayWindow(cfg: Config, n: nat, firstRow: int): Range {
    GetMaskInds(cfg, n, firstRow, cfg.rows)
  }

  /** The window `findToThumbnail` converts: two screens of prefetch. */
  function ConversionWindow(cfg: Config, n: nat, firstRow: int): Range {
    GetMaskInds(cfg, n, firstRow, 2 * cfg.rows)
  }

  lemma MulMonotone(a: int, b: int, c: int)
    requires a <= b && c >= 0
    ensures a * c <= b * c
  {
  }

  /** For a natural `i` and a positive column count, comparing `i` with a row
      boundary `k * c` is comparing its row `i / c` with `k`. */
  lemma RowBoundary(i: int, k: int, c: int)
    requires i >= 0 && c > 0
    ensures i < k * c <==> i / c < k
  {
    var q, m := i / c, i % c;
    assert i == q * c + m && 0 <= m < c;
    if q < k {
      MulMonotone(q + 1, k, c);
      assert (q + 1) * c == q * c + c;
    } else {
      MulMonotone(k, q, c);
    }
  }

  /** The window is exactly the images whose grid row lies between `prefetch`
      rows above the first visible row and `prefetch` rows below the last one,
      cut to the list. */
  lemma {:induction false} WindowIsGridRows(cfg: Config, n: nat, firstRow: int, prefetch: int, i: int)
    requires cfg.cols > 0
    ensures Contains(GetMaskInds(cfg, n, firstRow, prefetch), i)
        <==> 0 <= i < n && firstRow - prefetch <= i / cfg.cols < firstRow + cfg.rows + prefetch
  {
    var w := GetMaskInds(cfg, n, firstRow, prefetch);
    var c := cfg.cols;
    if i >= 0 {
      RowBoundary(i, firstRow + cfg.rows + prefetch, c);
      RowBoundary(i, firstRow - prefetch, c);
      if firstRow < prefetch {
        assert i / c >= 0;
      }
    }
  }

  /** With a non-negative geometry and scroll row, the window is well formed
      exactly when the first row is inside the prefetch margin or the
      unclamped start does not pass the end of the list. */
  lemma {:induction false} WindowOrderedIff(cfg: Config, n: nat, firstRow: int, prefetch: int)
    requires cfg.rows >= 0 && cfg.cols >= 0 && prefetch >= 0 && firstRow >= 0
    ensures var w := GetMaskInds(cfg, n, firstRow, prefetch);
      0 <= w.start <= w.end <==> firstRow < prefetch || (firstRow - prefetch) * cfg.cols <= n
  {
    var e := firstRow + cfg.rows + prefetch;
    MulMonotone(0, e, cfg.cols);
    if firstRow >= prefetch {
      MulMonotone(firstRow - prefetch, e, cfg.cols);
      MulMonotone(0, firstRow - prefetch, cfg.cols);
    }
  }

  /** A wider prefetch margin gives a window that contains the narrower one. */
  lemma {:induction false} WiderPrefetchCovers(cfg: Config, n: nat, firstRow: int, p: int, q: int)
    requires cfg.cols >= 0 && p <= q
    ensures GetMaskInds(cfg, n, firstRow, q).start <= GetMaskInds(cfg, n, firstRow, p).start
    ensures GetMaskInds(cfg, n, firstRow, p).end <= GetMaskInds(cfg, n, firstRow, q).end
  {
    MulMonotone(firstRow + cfg.rows + p, firstRow + cfg.rows + q, cfg.cols);
    if firstRow >= q {
      MulMonotone(firstRow - q, firstRow - p, cfg.cols);
    } else if firstRow >= p {
      MulMonotone(0, firstRow - p, cfg.cols);
    }
  }

  /** The conversion window contains the display window, so every image that
      is displayed has been considered for conversion. */
  lemma ConversionCoversDisplay(cfg: Config, n: nat, firstRow: int)
    requires cfg.rows >= 0 && cfg.cols >= 0
    ensures ConversionWindow(cfg, n, firstRow).start <= DisplayWindow(cfg, n, firstRow).start
    ensures DisplayWindow(cfg, n, firstRow).end <= ConversionWindow(cfg, n, firstRow).end
  {
    WiderPrefetchCovers(cfg, n, firstRow, cfg.rows, 2 * cfg.rows);
  }

  /** Far enough down, the start overtakes the clamped end: a 3 by 3 grid over
      50 images at row 100 gives the range [291, 50). */
  lemma LargeFirstRowInvertsWindow()
    ensures DisplayWindow(Config(3, 3), 50, 100) == Range(291, 50)
  {
  }

  /** The worked examples for a 3 by 3 grid with one screen of prefetch,
      and the empty range reached when the start meets the list length. */
  lemma DisplayWindowExamples()
    ensures DisplayWindow(Config(3, 3), 50, 0) == Range(0, 18)
    ensures DisplayWindow(Config(3, 3), 50, 10) == Range(21, 48)
    ensures DisplayWindow(Config(3, 3), 5, 0) == Range(0, 5)
    ensures DisplayWindow(Config(3, 3), 18, 9) == Range(18, 18)
  {
  }
}
